=== FILE: README.md ===
# Plaits control state, in Dafny

This project models the control logic of the VCV Rack port of the Plaits
macro-oscillator module (`src/Plaits.cpp`): the part of the module's
process callback that runs once per 12-sample control block, and the
hooks that set the selected synthesis engine.

- **Engine selection** (`Engine`). The "Previous model" and "Next model"
  buttons step `patch.engine` around the 24 synthesis models, wrapping at
  both ends. The engine is a C++ `int` and the wrap uses C++'s truncating
  `%` (`CppInt.Rem`), so an engine loaded unchecked from a saved patch can be
  negative or above 23. One press brings any non-negative engine back into
  0..23, but a negative one only when it sits next to a multiple of 24
  (for example -1 under "next" or -23 under "previous").
  Reset sets engine 0; randomise sets a 32-bit random number modulo 16.
- **Model lights** (`Lights`). Each voice's active engine lights one or
  two of 16 slots (engines 0..7 slot `e` and `e + 8`, the others slot
  `e - 8`), and the slots are transposed into the host's light numbering
  with `(i % 8) * 2 + i / 8`. The model relates this index arithmetic to
  the panel: eight green/red LEDs, where engine `e` shows on LED `e % 8`,
  in both colours for the first bank, green for the second and red for the
  third.
- **Frequency modes** (`Frequency`). The frequency knob (-4..4) becomes the
  patch's MIDI note through an affine map in every frequency mode but
  "Octaves" (mode 9), where the knob only picks an octave through a
  quantiser and the frequency-root knob fine-tunes it; the ranges are
  proved against the mode names ("C0 +/- 7 semitones" ... "C0 to C8").
- **The control block** (`Plaits`). Buttons, then lights against the new
  engine, then the note and the patch fields copied from the knobs; the
  reset, randomise and save/load hooks as far as they touch the engine and
  the low-CPU flag.

Modelling choices:

- Single-precision floats are idealised as `real`.
- The button edge detector is an input: `prevFired` / `nextFired` say
  whether a button was pressed since the last block.
- The engine each voice is running (`voice[c].active_engine()`) is an
  input, required to be in 0..23 for every voice in use; the voice code is
  not part of this model.
- The 2 Hz light triangle is an input level `tri`; the octave quantiser of
  frequency mode 9 is an input `octave` (its output level, 0..8 for the
  nine levels it is initialised with); the low-CPU pitch offset
  `log2(48000 * sampleTime)` is an input `lowCpuOffset`.
- `engine + 1` on the largest `int` and `engine - 1` on the smallest are
  signed overflow, which C++ leaves undefined; `Engine.Next` and
  `Engine.Prev` exclude those inputs, and nothing in the save/load code
  prevents a saved patch from supplying them.
- The conversion of the JSON integer (`long long`) to `int` is modelled as
  two's-complement wrap-around (`CppInt.NarrowToInt32`).
- `CppInt.Rem` and `CppInt.Quot` take positive divisors only: every
  divisor in the modelled code is a positive constant (24, 8).

## Model

| member | source | states |
|---|---|---|
| CppInt.Rem | src/Plaits.cpp:179 | C++ `%`: the result is congruent to the dividend, smaller than the divisor in magnitude, and on the dividend's side of zero |
| CppInt.RemUnique | src/Plaits.cpp:183 | those three facts determine the truncating remainder uniquely |
| CppInt.Quot | src/Plaits.cpp:212 | C++ `/`: quotient times divisor plus remainder gives the dividend, the product truncated toward zero |
| CppInt.NarrowToInt32 | src/Plaits.cpp:145 | the JSON integer stored into the `int` engine keeps its value when it fits and is otherwise congruent modulo 2^32 |
| Engine.Next | src/Plaits.cpp:182-184 | "next" is +1 modulo 24 with a truncating representative: 0..22 go up by one, 23 wraps to 0, non-negative engines land in 0..23 |
| Engine.Prev | src/Plaits.cpp:175-181 | "previous" sends 0 to 23 and 1..23 down by one; other engines go to a value congruent to engine-1 with the truncating sign |
| Engine.Buttons | src/Plaits.cpp:174-184 | one block's presses keep a valid engine valid, leave the engine alone when nothing fired, and normalise any non-negative engine |
| Engine.PrevNextInverse | src/Plaits.cpp:175-184 | on 0..23 "previous" and "next" undo each other |
| Engine.BothButtonsIdentity | src/Plaits.cpp:175-184 | both buttons in one block (previous, then next) leave the engine unchanged if and only if it is in -22..23 |
| Engine.OnePressNormalises | src/Plaits.cpp:175-184 | any non-negative engine, however large, is in 0..23 after one press of either button |
| Engine.NextNormalisesIff | src/Plaits.cpp:182-184 | one press of "next" puts an engine into 0..23 if and only if it is at least -1 or one short of a multiple of 24 |
| Engine.PrevNormalisesIff | src/Plaits.cpp:175-181 | one press of "previous" puts an engine into 0..23 if and only if it is non-negative or one above a multiple of 24 |
| Engine.NextPresses | src/Plaits.cpp:182-184 | after any press the engine is within 23 of zero, and a valid engine stays valid under repeated "next" |
| Engine.PrevPresses | src/Plaits.cpp:175-181 | after any press the engine is within 23 of zero, and a valid engine stays valid under repeated "previous" |
| Engine.NextClimbs | src/Plaits.cpp:182-184 | from -k (k < 24) "next" reaches 0..23 within k presses |
| Engine.PrevDescends | src/Plaits.cpp:175-181 | from -k (k < 24) "previous" reaches 0..23 within 24-k presses |
| Engine.PressesRecover | src/Plaits.cpp:175-184 | whatever engine a saved patch holds, 24 presses of either button bring it into 0..23 ("next" on every `int` but the largest, "previous" on every one but the smallest, where the first press would overflow) |
| Engine.RecoveryBoundTight | src/Plaits.cpp:182-184 | 24 presses are needed: 23 presses of "next" from -24 reach only -1 |
| Lights.LitSlots | src/Plaits.cpp:196-203 | every slot a voice's engine lights is inside the 16-entry table and in the engine's row; engines 0..7 light two slots, the rest one |
| Lights.LitSlotsShowEngine | src/Plaits.cpp:196-203 | the slots an engine lights are exactly the LED colours of the panel reading of that engine (row e % 8, colour by bank) |
| Lights.LitSlotShowsLed | src/Plaits.cpp:198-202 | slot by slot, an engine lights a slot if and only if its LED colour belongs to the engine |
| Lights.LedSlot | src/Plaits.cpp:439-446 | each of the eight green/red LEDs' colours has a slot of the table that stands for it |
| Lights.EngineLedsInjective | src/Plaits.cpp:196-203 | different engines light different LED colours |
| Lights.LightId | src/Plaits.cpp:211-212 | the transposed index is in 0..15 and is the host light of the slot's LED colour (LED k owns lights 2k and 2k+1) |
| Lights.TransposeBijective | src/Plaits.cpp:210-217 | the transpose is a bijection of 0..15, so each light is written exactly once per block |
| Lights.ActiveLights | src/Plaits.cpp:193-207 | a slot is lit if and only if some voice in use runs an engine lighting it; the pulse flag is set if and only if some voice runs an engine other than the selected one |
| Lights.SlotBrightness | src/Plaits.cpp:213-215 | a slot shows the triangle level when the selected engine is the slot plus 8 and the pulse flag is set, and only then can it differ from full when lit and off otherwise; it stays in 0..1 for a level in 0..1 |
| Lights.SetLights | src/Plaits.cpp:209-217 | every host light shows its own slot's brightness, and the write order is a permutation of the 16 lights |
| Frequency.Note | src/Plaits.cpp:227-236 | for a knob in -4..4: mode 10 gives notes in C0..C8, modes k = 1..8 notes within 7 semitones of C(k-1), mode 0 notes in -108.37..11.63, mode 9 notes in -9..115 |
| Frequency.NoteAffine | src/Plaits.cpp:227-236 | outside mode 9 the note is affine in the pitch with a positive slope, so it rises strictly with the knob |
| Frequency.NoteRoundTrip | src/Plaits.cpp:227-236 | outside mode 9 the pitch is recovered from the note and every note is reached |
| Frequency.NoteMatchesLabels | src/Plaits.cpp:380-392 | modes 1..8 centre the knob on C(k-1) with its ends 7 semitones away; mode 10 puts the knob's ends on C0 and C8 |
| Frequency.OctaveModeSteps | src/Plaits.cpp:229-231 | in mode 9 one quantiser step is exactly one octave, and the root knob shifts the note by 14/4 semitones per unit |
| Plaits.OnReset | src/Plaits.cpp:113-117 | reset selects engine 0 and centres lowpass-gate colour and decay, leaving the rest of the state unchanged |
| Plaits.Initial | src/Plaits.cpp:59-110 | a new module has engine 0, frequency mode "C0 to C8", resampling on, and is a fixed point of reset |
| Plaits.OnRandomize | src/Plaits.cpp:119-121 | randomise picks an engine in 0..15 congruent to the random number modulo 16 and changes nothing else |
| Plaits.RandomizeReach | src/Plaits.cpp:119-121 | randomise can reach an engine if and only if it is in 0..15 |
| Plaits.DataToJson | src/Plaits.cpp:123-127 | saving writes the low-CPU flag's value and the engine's value, widened without change |
| Plaits.DataFromJson | src/Plaits.cpp:138-145 | loading replaces each field present, keeps the rest, and stores the engine without clamping it to 0..23 |
| Plaits.SaveLoadRoundTrip | src/Plaits.cpp:123-145 | loading what was saved restores the engine and the low-CPU flag |
| Plaits.LoadThenPress | src/Plaits.cpp:143-145 | any `int` engine, the smallest and largest included, loads unclamped, and one press of either button defined on it then repairs it exactly as the two if-and-only-if lemmas above say |
| Plaits.Channels | src/Plaits.cpp:169 | a block has between 1 and 16 voices: as many as the pitch input has channels, and 1 when it has none |
| Plaits.ControlBlock | src/Plaits.cpp:171-245 | the block applies the presses, sets the note for the frequency mode from the knob pitch (shifted by the low-CPU offset in low-CPU mode), copies the knobs, and lights each LED colour full if and only if some voice shows it, except the selected engine's own colour (engines 8..23) which pulses while a voice differs |
| Plaits.Process | src/Plaits.cpp:168-245 | with an empty output buffer the whole control block's outcome holds (engine, note, knob copies, every LED's value); otherwise nothing changes; a valid engine stays valid either way |

## Left out

- Audio rendering and output (`src/Plaits.cpp:247-305`): the voices' `Render`, the
  sample-rate converter, the ring buffer and the output voltage scaling are
  floating-point signal processing in code that is not part of this model.
- User data: the base64 `userData` field of a saved patch, the custom-data
  reset and the `.bin` file loading with its file picker and thread sleep are
  file and host I/O.
- The legacy `lpgColor` and `decay` fields of a saved patch set panel knobs,
  which are host state outside the control state modelled here.
- Widget and context menu: panel layout and the menu items, including the
  menu entries that select an engine or a frequency mode directly, are user
  interface.
- The button edge detectors, the 2 Hz triangle, the octave quantiser of
  frequency mode 9 and the low-CPU `log2` offset are inputs (see above).
- Frequency.Note: mode 9 takes the octave quantiser's output as given, so
  the model does not say how that output follows the knob.
- Float rounding of the note maps is not modelled; the bounds hold in exact
  arithmetic.
- A saved `lowCpu` field that is not a JSON boolean: the JSON library reads
  it as false, which is not part of this model; only boolean fields are
  modelled.
- A saved `model` field that is not a JSON integer: the JSON library's
  conversion of such a value is not part of this model; only integer fields
  are modelled.
- The Marbles clock and random-voltage engine (ramp extraction and division,
  the trigger and X/Y generators, the scale recorder and quantiser) is not
  part of this model: its source files are not among the repository files
  modelled here, only its test driver is.
- `eurorack/plaits/dsp/oscillator/super_square_oscillator.h` (a band-limited
  oscillator in floating point) and `eurorack/marbles/test/marbles_test.cc` (a
  file-dumping test driver whose subjects are not part of this model) are not
  modelled.

=== FILE: cppint.dfy ===
/**
  C++ integer semantics the module's control code relies on: the range of a
  32-bit and a 64-bit signed `int`, the narrowing conversion between them, and
  the truncating `/` and `%` operators (Dafny's own `/` and `%` are Euclidean,
  which differs whenever the dividend is negative).
 */
module CppInt {

  const MinInt32: int := -0x8000_0000
  const MaxInt32: int := 0x7FFF_FFFF
  const MinInt64: int := -0x8000_0000_0000_0000
  const MaxInt64: int := 0x7FFF_FFFF_FFFF_FFFF

  /** A value of C++ `int`. */
  type Int32 = x: int | MinInt32 <= x <= MaxInt32

  /** A value of C++ `long long` (the integer type of the JSON library). */
  type Int64 = x: int | MinInt64 <= x <= MaxInt64

  /** C++ `a % b` for a positive divisor (every divisor in the module's
      control code is a positive constant): the remainder of division
      truncated toward zero. Its sign follows the dividend and its magnitude
      stays below the divisor. */
  function Rem(a: int, b: int): (r: int)
    requires b > 0
    ensures (a - r) % b == 0
    ensures -b < r < b
    ensures a >= 0 ==> r >= 0
    ensures a <= 0 ==> r <= 0
  {
    if a >= 0 then
      assert a - a % b == b * (a / b);
      MultipleMod(a / b, b);
      a % b
    else
      var n := -a;
      var q := n / b;
      assert n == b * q + n % b;
      assert a + n % b == b * -q;
      MultipleMod(-q, b);
      -(n % b)
  }

  /** C++ `a / b` for a positive divisor: the quotient truncated toward zero. */
  function Quot(a: int, b: int): (q: int)
    requires b > 0
    ensures q * b + Rem(a, b) == a
    ensures a >= 0 ==> 0 <= q * b <= a
    ensures a <= 0 ==> a <= q * b <= 0
  {
    if a >= 0 then a / b else -((-a) / b)
  }

  /** The three facts about `Rem` determine it: any value congruent to the
      dividend, strictly smaller than the divisor in magnitude and on the
      dividend's side of zero is the truncating remainder. */
  lemma RemUnique(a: int, b: int, r: int)
    requires b > 0
    requires (a - r) % b == 0
    requires -b < r < b
    requires a > 0 ==> r >= 0
    requires a < 0 ==> r <= 0
    ensures r == Rem(a, b)
  {
    var s := Rem(a, b);
    var x, y := a - s, a - r;
    assert x == b * (x / b) && y == b * (y / b);
    assert r - s == b * (x / b - y / b);
    SmallMultipleIsZero(x / b - y / b, b);
  }

  lemma MultipleMod(k: int, b: int)
    requires b > 0
    ensures (b * k) % b == 0
  {
    var m := b * k;
    assert b * (k - m / b) == m % b;
    SmallMultipleIsZero(k - m / b, b);
  }

  lemma SmallMultipleIsZero(k: int, b: int)
    requires b > 0
    requires -b < b * k < b
    ensures k == 0
  {
  }

  /** On a non-negative dividend and a positive divisor, C++ and Dafny agree. */
  lemma NonNegativeAgrees(a: int, b: int)
    requires a >= 0 && b > 0
    ensures Rem(a, b) == a % b
    ensures Quot(a, b) == a / b
  {
  }

  /** The conversion of a `long long` to `int`: two's-complement wrap-around,
      keeping the low 32 bits (the behaviour C++20 prescribes and every
      platform the module runs on implements). */
  function NarrowToInt32(v: Int64): (r: Int32)
    ensures (v - r) % 0x1_0000_0000 == 0
    ensures MinInt32 <= v <= MaxInt32 ==> r == v
  {
    var low := (v - MinInt32) % 0x1_0000_0000;
    assert MinInt32 <= v <= MaxInt32 ==> low == v - MinInt32;
    low + MinInt32
  }
}

=== FILE: engine.dfy ===
/**
  Engine selection: the "Previous model" and "Next model" buttons step the
  patch's engine number around the 24 synthesis models, wrapping at both ends.
  The engine is a C++ `int`, and the wrap uses C++'s truncating `%`, so a
  negative engine (which a saved patch may hold) is not folded back into range
  the way a Euclidean remainder would fold it.
 */
module Engine {
  import opened CppInt

  /** The number of synthesis models. */
  const NumEngines: int := 24

  predicate IsEngine(e: int) {
    0 <= e < NumEngines
  }

  /** "Next model": `(engine + 1) % 24`. Adding one to the largest `int` is
      signed overflow, which C++ leaves undefined, so that input is excluded. */
  function Next(e: Int32): (r: Int32)
    requires e != MaxInt32
    ensures (r - (e + 1)) % NumEngines == 0
    ensures -NumEngines < r < NumEngines
    ensures e >= -1 ==> r >= 0
    ensures e < -1 ==> r <= 0
    ensures IsEngine(e) ==> r == (if e == NumEngines - 1 then 0 else e + 1)
  {
    Rem(e + 1, NumEngines)
  }

  /** "Previous model": engine 0 goes to 23, anything else to
      `(engine - 1) % 24`. Subtracting one from the smallest `int` is signed
      overflow, so that input is excluded. */
  function Prev(e: Int32): (r: Int32)
    requires e != MinInt32
    ensures e == 0 ==> r == NumEngines - 1
    ensures e != 0 ==> (r - (e - 1)) % NumEngines == 0 && -NumEngines < r < NumEngines
    ensures e > 0 ==> r >= 0
    ensures e < 0 ==> r <= 0
    ensures IsEngine(e) ==> r == (if e == 0 then NumEngines - 1 else e - 1)
  {
    if e == 0 then NumEngines - 1 else Rem(e - 1, NumEngines)
  }

  /** The button presses of one control block leave the engine arithmetic
      defined: "previous" needs an engine above the smallest `int`, and
      "next" alone needs one below the largest. After "previous" the engine
      is within 23 of zero, so "next" then needs nothing more. */
  predicate PressesDefined(e: Int32, prev: bool, next: bool) {
    && (prev ==> e != MinInt32)
    && (next && !prev ==> e != MaxInt32)
  }

  /** One control block's button handling: "previous" is applied first, then
      "next", each only when its button fired. */
  function Buttons(e: Int32, prev: bool, next: bool): (r: Int32)
    requires PressesDefined(e, prev, next)
    ensures !prev && !next ==> r == e
    ensures IsEngine(e) ==> IsEngine(r)
    ensures (prev || next) && e >= 0 ==> IsEngine(r)
  {
    var afterPrev := if prev then Prev(e) else e;
    if next then Next(afterPrev) else afterPrev
  }

  /** On the 24 engines, "previous" and "next" undo each other. */
  lemma PrevNextInverse(e: int)
    requires IsEngine(e)
    ensures Next(Prev(e)) == e
    ensures Prev(Next(e)) == e
  {
  }

  /** Pressing both buttons in the same block leaves the engine unchanged
      exactly when it lies in -22..23: on -23 "previous" reaches 0 and
      "next" then gives 1, and from anything further out the two presses
      land back inside -23..23. */
  lemma BothButtonsIdentity(e: Int32)
    requires e != MinInt32
    ensures Buttons(e, true, true) == e <==> -NumEngines + 2 <= e < NumEngines
  {
    var p := Prev(e);
    if -NumEngines + 2 <= e < 0 {
      RemUnique(e - 1, NumEngines, e - 1);
      RemUnique(e, NumEngines, e);
    } else if e == -NumEngines + 1 {
      RemUnique(e - 1, NumEngines, 0);
    }
  }

  /** A non-negative engine, however large, is back among the 24 engines
      after a single press of either button. */
  lemma OnePressNormalises(e: Int32)
    requires e >= 0
    ensures e != MaxInt32 ==> IsEngine(Next(e))
    ensures IsEngine(Prev(e))
  {
  }

  /** Exactly which engines one press of "next" brings among the 24: every
      engine from -1 up, and below that only those one short of a multiple
      of 24 (the truncating remainder is then 0). */
  lemma NextNormalisesIff(e: Int32)
    requires e != MaxInt32
    ensures IsEngine(Next(e)) <==> e >= -1 || (e + 1) % NumEngines == 0
  {
  }

  /** Exactly which engines one press of "previous" brings among the 24:
      every non-negative engine, and below zero only those one above a
      multiple of 24. */
  lemma PrevNormalisesIff(e: Int32)
    requires e != MinInt32
    ensures IsEngine(Prev(e)) <==> e >= 0 || (e - 1) % NumEngines == 0
  {
  }

  /** The engine after `n` presses of "next". */
  function NextPresses(e: Int32, n: nat): (r: Int32)
    requires e != MaxInt32
    ensures n > 0 ==> -NumEngines < r < NumEngines
    ensures IsEngine(e) ==> IsEngine(r)
    decreases n
  {
    if n == 0 then e else NextPresses(Next(e), n - 1)
  }

  /** The engine after `n` presses of "previous". */
  function PrevPresses(e: Int32, n: nat): (r: Int32)
    requires e != MinInt32
    ensures n > 0 ==> -NumEngines < r < NumEngines
    ensures IsEngine(e) ==> IsEngine(r)
    decreases n
  {
    if n == 0 then e else PrevPresses(Prev(e), n - 1)
  }

  /** From an engine in -23..0, "next" climbs one step per press. */
  lemma {:induction false} NextClimbs(e: Int32, n: nat)
    requires -NumEngines < e < NumEngines
    requires n >= -e
    ensures IsEngine(NextPresses(e, n))
    decreases n
  {
    if e < 0 {
      RemUnique(e + 1, NumEngines, e + 1);
      NextClimbs(Next(e), n - 1);
    }
  }

  /** From an engine in -23..-1, "previous" descends one step per press and
      leaves -23 for 0. */
  lemma {:induction false} PrevDescends(e: Int32, n: nat)
    requires -NumEngines < e < NumEngines
    requires e < 0 ==> n >= NumEngines + e
    ensures IsEngine(PrevPresses(e, n))
    decreases n
  {
    if e < 0 {
      if e == -NumEngines + 1 {
        RemUnique(e - 1, NumEngines, 0);
      } else {
        RemUnique(e - 1, NumEngines, e - 1);
      }
      PrevDescends(Prev(e), n - 1);
    }
  }

  /** Whatever engine a saved patch holds, 24 presses of either button bring
      it back among the 24 engines, where it then stays. */
  lemma {:induction false} PressesRecover(e: Int32)
    ensures e != MaxInt32 ==> IsEngine(NextPresses(e, NumEngines))
    ensures e != MinInt32 ==> IsEngine(PrevPresses(e, NumEngines))
  {
    if e != MaxInt32 {
      NextClimbs(Next(e), NumEngines - 1);
    }
    if e != MinInt32 {
      PrevDescends(Prev(e), NumEngines - 1);
    }
  }

  /** 24 presses are needed: from -24, 23 presses of "next" reach only -1. */
  lemma {:induction false} RecoveryBoundTight()
    ensures NextPresses(-NumEngines, NumEngines - 1) == -1
  {
    RemUnique(-NumEngines + 1, NumEngines, -NumEngines + 1);
    ClimbExactly(-NumEngines + 1, NumEngines - 2);
  }

  lemma {:induction false} ClimbExactly(e: Int32, n: nat)
    requires -NumEngines < e && e + n < 0
    ensures NextPresses(e, n) == e + n
    decreases n
  {
    if n > 0 {
      RemUnique(e + 1, NumEngines, e + 1);
      ClimbExactly(e + 1, n - 1);
    }
  }
}

=== FILE: frequency.dfy ===
/**
  The frequency knob and the frequency modes. The knob spans -4..4; each of
  the eleven frequency modes turns its value into the patch's note, a MIDI
  note number (60 is C4). Single-precision arithmetic is idealised as exact
  real arithmetic.
 */
module Frequency {

  /** The knob's range. */
  const KnobMin: real := -4.0
  const KnobMax: real := 4.0

  /** Frequency modes 0..10, in the order of the mode menu. */
  type FrequencyMode = m: int | 0 <= m <= 10

  /** The mode a new module starts in: "C0 to C8". */
  const DefaultMode: FrequencyMode := 10

  /** The mode that quantises the knob to octaves. */
  const OctavesMode: FrequencyMode := 9

  /** Levels of the octave quantiser (it is initialised with nine). */
  const OctaveLevels: int := 9

  predicate InKnobRange(p: real) {
    KnobMin <= p <= KnobMax
  }

  /** MIDI note number of C in octave `o` (C4 is 60). */
  function MidiC(o: int): int {
    12 * (o + 1)
  }

  /** The patch note for a frequency mode. `root` is the frequency-root knob
      (-4..4), used only by the octave mode, and `octave` is the output of
      the octave quantiser, also used only by that mode. */
  function Note(mode: FrequencyMode, pitch: real, root: real, octave: int): (note: real)
    ensures mode == 10 && InKnobRange(pitch) ==> MidiC(0) as real <= note <= MidiC(8) as real
    ensures 1 <= mode <= 8 && InKnobRange(pitch) ==>
      MidiC(mode - 1) as real - 7.0 <= note <= MidiC(mode - 1) as real + 7.0
    ensures mode == 0 && InKnobRange(pitch) ==> -108.37 <= note <= 11.63
    ensures mode == OctavesMode && InKnobRange(root) && 0 <= octave < OctaveLevels ==> -9.0 <= note <= 115.0
  {
    if mode == 0 then -48.37 + pitch * 15.0
    else if mode == OctavesMode then
      var fineTune := root / 4.0;
      53.0 + fineTune * 14.0 + 12.0 * (octave as real - 4.0)
    else if mode == 10 then 60.0 + pitch * 12.0
    else mode as real * 12.0 + pitch * 7.0 / 4.0
  }

  /** Semitones of note per unit of pitch in every mode but the octave
      mode. */
  function Slope(mode: FrequencyMode): (s: real)
    requires mode != OctavesMode
    ensures s > 0.0
  {
    if mode == 0 then 15.0 else if mode == 10 then 12.0 else 7.0 / 4.0
  }

  /** The pitch that yields `note` in a mode other than the octave mode. */
  function PitchForNote(mode: FrequencyMode, note: real): real
    requires mode != OctavesMode
  {
    (note - Note(mode, 0.0, 0.0, 0)) / Slope(mode)
  }

  /** Outside the octave mode the note is an affine map of the pitch with a
      positive slope, so it rises strictly with the knob. */
  lemma NoteAffine(mode: FrequencyMode, p: real, q: real)
    requires mode != OctavesMode
    ensures Note(mode, q, 0.0, 0) - Note(mode, p, 0.0, 0) == Slope(mode) * (q - p)
    ensures p < q ==> Note(mode, p, 0.0, 0) < Note(mode, q, 0.0, 0)
  {
  }

  /** Outside the octave mode the pitch can be recovered from the note, and
      every note is reached by some pitch. */
  lemma NoteRoundTrip(mode: FrequencyMode, p: real, note: real)
    requires mode != OctavesMode
    ensures PitchForNote(mode, Note(mode, p, 0.0, 0)) == p
    ensures Note(mode, PitchForNote(mode, note), 0.0, 0) == note
  {
    NoteAffine(mode, 0.0, p);
    NoteAffine(mode, 0.0, PitchForNote(mode, note));
  }

  /** The mode labels: modes 1..8 are "C(k-1) +/- 7 semitones", with the knob
      centred on C(k-1) and its ends seven semitones away; mode 10 is "C0 to
      C8", with the knob's ends on C0 and C8. */
  lemma NoteMatchesLabels(mode: FrequencyMode)
    ensures 1 <= mode <= 8 ==>
      && Note(mode, 0.0, 0.0, 0) == MidiC(mode - 1) as real
      && Note(mode, KnobMin, 0.0, 0) == MidiC(mode - 1) as real - 7.0
      && Note(mode, KnobMax, 0.0, 0) == MidiC(mode - 1) as real + 7.0
    ensures mode == 10 ==>
      && Note(mode, KnobMin, 0.0, 0) == MidiC(0) as real
      && Note(mode, KnobMax, 0.0, 0) == MidiC(8) as real
  {
  }

  /** In the octave mode the knob acts only through the quantiser: one
      quantiser step moves the note by exactly one octave, and the root knob
      shifts it by up to 14 semitones either way. */
  lemma OctaveModeSteps(pitch: real, pitch': real, root: real, octave: int)
    ensures Note(OctavesMode, pitch', root, octave + 1) - Note(OctavesMode, pitch, root, octave) == 12.0
    ensures Note(OctavesMode, pitch, root, octave) - Note(OctavesMode, pitch, 0.0, octave) == root * 14.0 / 4.0
  {
  }
}

=== FILE: lights.dfy ===
/**
  The model lights. The panel has eight green/red LEDs, one per row of the
  engine table. Each voice's active engine lights one or two of 16 slots
  (slot `i` stands for LED `i % 8` in colour `i / 8`), and the slots are then
  transposed into the host's light numbering, where the LED `k` owns
  light `2k` (green) and light `2k + 1` (red).
 */
module Lights {
  import opened CppInt
  import opened Engine

  /** Slots in the active-light table: eight LEDs times two colours. */
  const NumSlots: int := 16

  /** LEDs on the panel. */
  const NumLeds: int := 8

  /** Polyphonic voices the module owns. */
  const NumVoices: int := 16

  datatype Colour = Green | Red

  /** One colour of one panel LED. */
  datatype Led = Led(index: int, colour: Colour)

  /** The panel's reading of an engine number: the engine's row `e % 8`
      selects the LED, and its bank `e / 8` the colour. The first bank (the
      newer models) shows both colours at once, the second green, the third
      red. */
  function EngineLeds(e: int): set<Led>
    requires IsEngine(e)
  {
    var row := e % NumLeds;
    match e / NumLeds
    case 0 => {Led(row, Green), Led(row, Red)}
    case 1 => {Led(row, Green)}
    case _ => {Led(row, Red)}
  }

  /** The host light number of a LED colour. */
  function LedLight(d: Led): int {
    2 * d.index + (if d.colour == Red then 1 else 0)
  }

  /** The LED colour a slot of the active-light table stands for. */
  function SlotLed(i: int): Led
    requires 0 <= i < NumSlots
  {
    Led(i % NumLeds, if i < NumLeds then Green else Red)
  }

  /** The slots one voice's active engine lights: engines 0..7 light their
      own slot and the one eight above it, the others the slot eight below.
      Every slot is inside the 16-entry table. */
  function LitSlots(e: int): (s: set<int>)
    requires IsEngine(e)
    ensures forall k :: k in s ==> 0 <= k < NumSlots && (k - e) % NumLeds == 0
    ensures |s| == (if e < NumLeds then 2 else 1)
  {
    if e < NumLeds then {e, e + NumLeds} else {e - NumLeds}
  }

  /** The slots an engine lights are exactly the LED colours the panel uses
      for it. */
  lemma LitSlotsShowEngine(e: int)
    requires IsEngine(e)
    ensures (set k | k in LitSlots(e) :: SlotLed(k)) == EngineLeds(e)
  {
  }

  predicate ValidLed(d: Led) {
    0 <= d.index < NumLeds
  }

  /** The slot of the active-light table that stands for a LED colour. */
  function LedSlot(d: Led): (i: int)
    requires ValidLed(d)
    ensures 0 <= i < NumSlots
    ensures SlotLed(i) == d
  {
    d.index + (if d.colour == Red then NumLeds else 0)
  }

  /** An engine lights a slot exactly when the panel uses that slot's LED
      colour for the engine. */
  lemma LitSlotShowsLed(i: int, e: int)
    requires 0 <= i < NumSlots && IsEngine(e)
    ensures i in LitSlots(e) <==> SlotLed(i) in EngineLeds(e)
  {
  }

  /** Different engines light different LED colours, so the active engine of
      a single voice can be read off the panel. */
  lemma EngineLedsInjective(e1: int, e2: int)
    requires IsEngine(e1) && IsEngine(e2)
    requires EngineLeds(e1) == EngineLeds(e2)
    ensures e1 == e2
  {
    var row := e1 % NumLeds;
    assert Led(row, Green) in EngineLeds(e1) || Led(row, Red) in EngineLeds(e1);
  }

  /** Transpose of the `[light][colour]` table: slot `i` goes to host light
      `(i % 8) * 2 + i / 8`, in C++ integer arithmetic. */
  function LightId(i: int): (l: int)
    requires 0 <= i < NumSlots
    ensures 0 <= l < NumSlots
    ensures l == LedLight(SlotLed(i))
  {
    NonNegativeAgrees(i, NumLeds);
    Rem(i, NumLeds) * 2 + Quot(i, NumLeds)
  }

  /** The slot a host light shows. */
  function SlotOf(l: int): (i: int)
    requires 0 <= l < NumSlots
    ensures 0 <= i < NumSlots
  {
    (l % 2) * NumLeds + l / 2
  }

  /** The transpose is a bijection of 0..15: no two slots reach the same
      light and every light is reached, so each light is written exactly
      once per control block. */
  lemma TransposeBijective()
    ensures forall i :: 0 <= i < NumSlots ==> SlotOf(LightId(i)) == i
    ensures forall l :: 0 <= l < NumSlots ==> LightId(SlotOf(l)) == l
    ensures forall i, j :: 0 <= i < NumSlots && 0 <= j < NumSlots && LightId(i) == LightId(j) ==> i == j
  {
    forall i | 0 <= i < NumSlots
      ensures SlotOf(LightId(i)) == i
    {
      NonNegativeAgrees(i, NumLeds);
    }
    forall l | 0 <= l < NumSlots
      ensures LightId(SlotOf(l)) == l
    {
      NonNegativeAgrees(SlotOf(l), NumLeds);
    }
  }

  /** A LED colour is shown when some voice in use runs an engine the panel
      shows with it. */
  ghost predicate LedShown(voices: seq<int>, channels: int, d: Led)
    requires 0 <= channels <= |voices|
  {
    exists c :: 0 <= c < channels && IsEngine(voices[c]) && d in EngineLeds(voices[c])
  }

  /** A slot is lit when some voice in use runs an engine that lights it. */
  ghost predicate SlotLit(voices: seq<int>, channels: int, k: int)
    requires 0 <= channels <= |voices|
  {
    exists c :: 0 <= c < channels && IsEngine(voices[c]) && k in LitSlots(voices[c])
  }

  /** The active-light table and the pulse flag: each voice in use lights
      the slots of its active engine, and the selected model's light pulses
      when at least one voice runs a different engine than the one
      selected. */
  method ActiveLights(engine: int, voices: seq<int>, channels: int) returns (lit: seq<bool>, pulse: bool)
    requires |voices| == NumVoices
    requires 0 <= channels <= NumVoices
    requires forall c :: 0 <= c < channels ==> IsEngine(voices[c])
    ensures |lit| == NumSlots
    ensures forall k :: 0 <= k < NumSlots ==> (lit[k] <==> SlotLit(voices, channels, k))
    ensures pulse <==> exists c :: 0 <= c < channels && voices[c] != engine
  {
    lit := seq(NumSlots, _ => false);
    pulse := false;
    var c := 0;
    while c < channels
      invariant 0 <= c <= channels
      invariant |lit| == NumSlots
      invariant forall k :: 0 <= k < NumSlots ==> (lit[k] <==> SlotLit(voices, c, k))
      invariant pulse <==> exists d :: 0 <= d < c && voices[d] != engine
    {
      var e := voices[c];
      if e < NumLeds {
        lit := lit[e := true][e + NumLeds := true];
      } else {
        lit := lit[e - NumLeds := true];
      }
      if e != engine {
        pulse := true;
      }
      c := c + 1;
    }
  }

  /** The brightness given to slot `i`: the triangle level `tri` when the
      selected engine is `i + 8` and a voice runs another engine, otherwise
      full or off as the active-light table says. */
  function SlotBrightness(lit: seq<bool>, i: int, engine: int, pulse: bool, tri: real): (b: real)
    requires |lit| == NumSlots && 0 <= i < NumSlots
    ensures 0.0 <= tri <= 1.0 ==> 0.0 <= b <= 1.0
    ensures b != tri ==> (b == 1.0 <==> lit[i])
    ensures pulse && engine == i + NumLeds ==> b == tri
    ensures b != (if lit[i] then 1.0 else 0.0) ==> pulse && engine == i + NumLeds
  {
    if engine == i + NumLeds && pulse then tri
    else if lit[i] then 1.0 else 0.0
  }

  /** Writes the 16 host lights from the active-light table. `order` lists
      the host lights in the order they are written. */
  method SetLights(lit: seq<bool>, engine: int, pulse: bool, tri: real) returns (lights: seq<real>, order: seq<int>)
    requires |lit| == NumSlots
    ensures |lights| == NumSlots
    ensures forall l :: 0 <= l < NumSlots ==> lights[l] == SlotBrightness(lit, SlotOf(l), engine, pulse, tri)
    ensures |order| == NumSlots
    ensures forall l :: 0 <= l < NumSlots ==> l in order
    ensures forall a, b :: 0 <= a < b < |order| ==> order[a] != order[b]
  {
    TransposeBijective();
    lights := seq(NumSlots, _ => 0.0);
    order := [];
    var i := 0;
    while i < NumSlots
      invariant 0 <= i <= NumSlots
      invariant |lights| == NumSlots
      invariant |order| == i
      invariant forall a :: 0 <= a < i ==> order[a] == LightId(a)
      invariant forall a :: 0 <= a < i ==> lights[LightId(a)] == SlotBrightness(lit, a, engine, pulse, tri)
    {
      var lightId := LightId(i);
      lights := lights[lightId := SlotBrightness(lit, i, engine, pulse, tri)];
      order := order + [lightId];
      i := i + 1;
    }
    forall l | 0 <= l < NumSlots
      ensures l in order
    {
      assert order[SlotOf(l)] == l;
    }
  }
}

=== FILE: plaits.dfy ===
/**
  The module's control state and the per-block control code of its process
  callback: the model buttons, the model lights and the note the frequency
  knob selects, together with the reset, randomise and save/load hooks that
  touch the selected engine.
 */
module Plaits {
  import opened CppInt
  import opened Engine
  import opened Lights
  import opened Frequency

  datatype Option<T> = None | Some(value: T)

  /** The synthesis patch handed to every voice. */
  datatype Patch = Patch(
    engine: Int32,
    note: real,
    harmonics: real,
    timbre: real,
    morph: real,
    lpgColour: real,
    decay: real,
    frequencyModulationAmount: real,
    timbreModulationAmount: real,
    morphModulationAmount: real)

  /** The panel knobs the control block reads. */
  datatype Knobs = Knobs(
    freq: real,
    freqRoot: real,
    harmonics: real,
    timbre: real,
    morph: real,
    lpgColour: real,
    lpgDecay: real,
    freqCv: real,
    timbreCv: real,
    morphCv: real)

  /** The module's control state. */
  datatype State = State(patch: Patch, frequencyMode: FrequencyMode, lowCpu: bool)

  /** What one control block sees besides the state. `prevFired` and
      `nextFired` say whether the "Previous model" and "Next model" buttons
      were pressed since the last block; `noteChannels` is the channel count
      of the pitch input; `activeEngines[c]` is the engine voice `c` is
      running; `tri` is the level of the 2 Hz light triangle;
      `lowCpuOffset` stands for the base-2 logarithm of 48000 times the
      sample time; `octave` is the octave quantiser's output. */
  datatype BlockInputs = BlockInputs(
    knobs: Knobs,
    prevFired: bool,
    nextFired: bool,
    noteChannels: int,
    activeEngines: seq<int>,
    tri: real,
    lowCpuOffset: real,
    octave: int)

  /** The fields of a saved patch that concern the control state. */
  datatype Saved = Saved(lowCpu: Option<bool>, model: Option<Int64>)

  const ZeroPatch: Patch := Patch(0, 0.0, 0.0, 0.0, 0.0, 0.0, 0.0, 0.0, 0.0, 0.0)

  /** Reset: engine 0, lowpass-gate colour and decay at their midpoints, and
      the rest of the patch as it was. */
  function OnReset(s: State): (r: State)
    ensures IsEngine(r.patch.engine) && r.patch.engine == 0
    ensures r.patch.lpgColour == 0.5 && r.patch.decay == 0.5
    ensures r.patch.(engine := s.patch.engine, lpgColour := s.patch.lpgColour, decay := s.patch.decay) == s.patch
    ensures r.frequencyMode == s.frequencyMode && r.lowCpu == s.lowCpu
  {
    s.(patch := s.patch.(engine := 0, lpgColour := 0.5, decay := 0.5))
  }

  /** A new module: a zeroed patch, then reset, in the "C0 to C8" frequency
      mode with resampling on. */
  function Initial(): (r: State)
    ensures r.patch.engine == 0 && r.frequencyMode == DefaultMode && !r.lowCpu
    ensures r == OnReset(r)
  {
    OnReset(State(ZeroPatch, DefaultMode, false))
  }

  /** Randomise: the engine becomes a 32-bit unsigned random number `u`
      modulo 16, so only the first two banks of engines can be chosen. */
  function OnRandomize(s: State, u: int): (r: State)
    requires 0 <= u < 0x1_0000_0000
    ensures 0 <= r.patch.engine < 16
    ensures (u - r.patch.engine) % 16 == 0
    ensures r.patch.(engine := s.patch.engine) == s.patch
    ensures r.frequencyMode == s.frequencyMode && r.lowCpu == s.lowCpu
  {
    s.(patch := s.patch.(engine := u % 16))
  }

  /** Randomise reaches exactly engines 0..15, never the third bank. */
  lemma RandomizeReach(s: State, e: int)
    ensures (exists u :: 0 <= u < 0x1_0000_0000 && OnRandomize(s, u).patch.engine == e) <==> 0 <= e < 16
  {
    if 0 <= e < 16 {
      assert OnRandomize(s, e).patch.engine == e;
    }
  }

  /** Save: the low-CPU flag and the engine, widened to the JSON integer
      type. */
  function DataToJson(s: State): (j: Saved)
    ensures j.lowCpu == Some(s.lowCpu)
    ensures j.model.Some?
    ensures j.model.value as int == s.patch.engine as int
  {
    Saved(Some(s.lowCpu), Some(s.patch.engine as Int64))
  }

  /** Load: each field present replaces the state's, the engine narrowed to
      `int` without any check that it names one of the 24 engines. */
  function DataFromJson(s: State, j: Saved): (r: State)
    ensures j.model.None? ==> r.patch.engine == s.patch.engine
    ensures j.model.Some? ==> (j.model.value - r.patch.engine) % 0x1_0000_0000 == 0
    ensures j.model.Some? && MinInt32 <= j.model.value <= MaxInt32 ==> r.patch.engine == j.model.value
    ensures r.lowCpu == (if j.lowCpu.Some? then j.lowCpu.value else s.lowCpu)
    ensures r.patch.(engine := s.patch.engine) == s.patch && r.frequencyMode == s.frequencyMode
  {
    var lowCpu := if j.lowCpu.Some? then j.lowCpu.value else s.lowCpu;
    var engine := if j.model.Some? then NarrowToInt32(j.model.value) else s.patch.engine;
    s.(lowCpu := lowCpu, patch := s.patch.(engine := engine))
  }

  /** Loading what was saved restores the engine and the low-CPU flag. */
  lemma SaveLoadRoundTrip(s: State, t: State)
    ensures DataFromJson(t, DataToJson(s)).patch.engine == s.patch.engine
    ensures DataFromJson(t, DataToJson(s)).lowCpu == s.lowCpu
  {
  }

  /** A saved patch can carry any `int` engine, and loading keeps it
      unclamped; one press of "next" or "previous" then brings it among the
      24 engines exactly as `NextNormalisesIff` and `PrevNormalisesIff`
      describe, so 100 is repaired and -2 is not. "Next" is defined on every
      engine but the largest `int`, "previous" on every one but the
      smallest. */
  lemma LoadThenPress(s: State, v: Int64)
    requires MinInt32 <= v <= MaxInt32
    ensures DataFromJson(s, Saved(None, Some(v))).patch.engine == v
    ensures v != MaxInt32 ==>
      (IsEngine(Next(DataFromJson(s, Saved(None, Some(v))).patch.engine)) <==> v >= -1 || (v + 1) % NumEngines == 0)
    ensures v != MinInt32 ==>
      (IsEngine(Prev(DataFromJson(s, Saved(None, Some(v))).patch.engine)) <==> v >= 0 || (v - 1) % NumEngines == 0)
  {
    var e := DataFromJson(s, Saved(None, Some(v))).patch.engine;
    if v != MaxInt32 {
      NextNormalisesIff(e);
    }
    if v != MinInt32 {
      PrevNormalisesIff(e);
    }
  }

  /** The voice count of a block: the pitch input's channel count, at least
      one. */
  function Channels(noteChannels: int): (n: int)
    requires 0 <= noteChannels <= NumVoices
    ensures 1 <= n <= NumVoices
    ensures noteChannels >= 1 ==> n == noteChannels
    ensures noteChannels == 0 ==> n == 1
  {
    if noteChannels > 1 then noteChannels else 1
  }

  /** What the control block may rely on: button arithmetic that does not
      overflow, a polyphony of at most 16, and an engine in 0..23 for every
      voice in use. */
  predicate BlockDefined(s: State, b: BlockInputs) {
    && PressesDefined(s.patch.engine, b.prevFired, b.nextFired)
    && 0 <= b.noteChannels <= NumVoices
    && |b.activeEngines| == NumVoices
    && forall c :: 0 <= c < Channels(b.noteChannels) ==> IsEngine(b.activeEngines[c])
  }

  /** A LED colour pulses when it is the panel light of a selected engine in
      8..23 and some voice runs another engine. Engines 0..7 never pulse. */
  ghost predicate Pulsing(engine: int, voices: seq<int>, channels: int, d: Led)
    requires 0 <= channels <= |voices|
  {
    && IsEngine(engine) && engine >= NumLeds && d in EngineLeds(engine)
    && exists c :: 0 <= c < channels && voices[c] != engine
  }

  /** What one control block promises of the new state `r` and the 16 host
      lights: the engine after the button presses; the note of the frequency
      mode for the knob pitch (shifted by the low-CPU offset in low-CPU mode);
      the remaining patch fields copied from the knobs; the frequency mode and
      the low-CPU flag unchanged; and, for every LED colour, the triangle
      level while it pulses and otherwise full exactly when some voice in
      use shows it. */
  ghost predicate BlockOutcome(s: State, b: BlockInputs, r: State, lights: seq<real>)
    requires BlockDefined(s, b)
  {
    var channels := Channels(b.noteChannels);
    var pitch := if s.lowCpu then b.knobs.freq + b.lowCpuOffset else b.knobs.freq;
    && r.patch.engine == Buttons(s.patch.engine, b.prevFired, b.nextFired)
    && r.patch.note == Note(s.frequencyMode, pitch, b.knobs.freqRoot, b.octave)
    && r.patch.harmonics == b.knobs.harmonics && r.patch.timbre == b.knobs.timbre
    && r.patch.morph == b.knobs.morph && r.patch.lpgColour == b.knobs.lpgColour
    && r.patch.decay == b.knobs.lpgDecay
    && r.patch.frequencyModulationAmount == b.knobs.freqCv
    && r.patch.timbreModulationAmount == b.knobs.timbreCv
    && r.patch.morphModulationAmount == b.knobs.morphCv
    && r.frequencyMode == s.frequencyMode && r.lowCpu == s.lowCpu
    && |lights| == NumSlots
    && (forall d :: ValidLed(d) ==> 0 <= LedLight(d) < NumSlots)
    && (forall d :: ValidLed(d) && Pulsing(r.patch.engine, b.activeEngines, channels, d) ==>
         lights[LedLight(d)] == b.tri)
    && (forall d :: ValidLed(d) && !Pulsing(r.patch.engine, b.activeEngines, channels, d) ==>
         lights[LedLight(d)] == (if LedShown(b.activeEngines, channels, d) then 1.0 else 0.0))
    && (0.0 <= b.tri <= 1.0 ==> forall l :: 0 <= l < NumSlots ==> 0.0 <= lights[l] <= 1.0)
  }

  /** One control block: the model buttons, then the model lights computed
      against the new engine, then the note for the frequency mode and the
      patch copied from the knobs. */
  method ControlBlock(s: State, b: BlockInputs) returns (r: State, lights: seq<real>)
    requires BlockDefined(s, b)
    ensures BlockOutcome(s, b, r, lights)
  {
    var engine := Buttons(s.patch.engine, b.prevFired, b.nextFired);
    var channels := Channels(b.noteChannels);
    var lit, pulse := ActiveLights(engine, b.activeEngines, channels);
    var order;
    lights, order := SetLights(lit, engine, pulse, b.tri);
    forall d | ValidLed(d)
      ensures 0 <= LedLight(d) < NumSlots
      ensures Pulsing(engine, b.activeEngines, channels, d) ==> lights[LedLight(d)] == b.tri
      ensures !Pulsing(engine, b.activeEngines, channels, d) ==>
        lights[LedLight(d)] == (if LedShown(b.activeEngines, channels, d) then 1.0 else 0.0)
    {
      var i := LedSlot(d);
      TransposeBijective();
      assert LightId(i) == LedLight(d);
      assert SlotOf(LedLight(d)) == i;
      forall c | 0 <= c < channels
        ensures i in LitSlots(b.activeEngines[c]) <==> d in EngineLeds(b.activeEngines[c])
      {
        LitSlotShowsLed(i, b.activeEngines[c]);
      }
      assert lit[i] <==> LedShown(b.activeEngines, channels, d);
      if IsEngine(engine) {
        LitSlotShowsLed(i, engine);
      }
    }
    var pitch := if s.lowCpu then b.knobs.freq + b.lowCpuOffset else b.knobs.freq;
    var note := Note(s.frequencyMode, pitch, b.knobs.freqRoot, b.octave);
    r := s.(patch := Patch(
      engine, note,
      b.knobs.harmonics, b.knobs.timbre, b.knobs.morph,
      b.knobs.lpgColour, b.knobs.lpgDecay,
      b.knobs.freqCv, b.knobs.timbreCv, b.knobs.morphCv));
  }

  /** The process callback's control part: the control block runs only when
      the resampled output buffer has run empty; otherwise the state and the
      lights are left as they are (`None`). */
  method Process(s: State, b: BlockInputs, bufferEmpty: bool) returns (r: State, lights: Option<seq<real>>)
    requires bufferEmpty ==> BlockDefined(s, b)
    ensures !bufferEmpty ==> r == s && lights.None?
    ensures bufferEmpty ==> lights.Some? && BlockOutcome(s, b, r, lights.value)
    ensures IsEngine(s.patch.engine) ==> IsEngine(r.patch.engine)
  {
    if bufferEmpty {
      var l;
      r, l := ControlBlock(s, b);
      lights := Some(l);
    } else {
      r, lights := s, None;
    }
  }
}
